=== FILE: README.md ===
# mobi-promo-notify: the promotion pass, modelled in Dafny

mobi-promo-notify watches the promotions page of one Vietnamese mobile provider
(mobifone, viettel or vinaphone). Each item on the page has a title and a description.
The program mails the recipients about every item whose title mentions "50%" and
that it has not mailed before. "Before" is decided by a ledger kept in a remote
key-value datastore under the key `sent_promos_<provider>`. The ledger maps a
fingerprint to the Unix time of the send. The fingerprint is the SHA-1 digest of the
title followed by the description, in upper-case hexadecimal.

The project models that pass:

- `services.dfy` (module `Services`): the datastore and the mail service.
  - Each is a class whose calls may fail. A failure is a nondeterministic choice.
  - The datastore logs every save it is asked to make.
  - The mail service keeps an outbox of the messages it accepted.
- `promo.dfy` (module `Promo`): the decisions, as pure functions.
  - The "50%" rule, the message body rule, the ledger key and the provider's page.
  - `Check` and `Step`: the per-item gate.
  - `Run`: the ledger and the mail after a whole page.
- `promo_properties.dfy` (module `PromoProperties`): what these guarantee.
  - Each filtered or already-seen item changes nothing.
  - A new worthy item adds exactly its fingerprint.
  - The ledger only grows, and each fingerprint is notified at most once.
  - Replaying a page against the ledger it produced sends nothing.
  - On a worked two-item page, exactly one message is sent.
- `visitor.dfy` (module `Visitor`): the visitor object and program start-up.
  - The class `PromoVisitor` keeps the ledger in its field `sentPromos`. Its methods
    are proved against `Step` and `Run`.
  - `Start` holds the start-up logic of `main`.

Two behaviours of main.go that one might expect otherwise are modelled as written:
- A stored ledger that does not decode aborts the pass. It is not replaced by an empty
  ledger.
- A failed send ends the process, so nothing is saved. The pass does not go on to the
  next item.

## Model

| member | source | states |
|---|---|---|
| `Services.Store.Get` | main.go:165-169 | A read returns the decoded stored value, or fails. |
| `Services.Store.Set` | main.go:180-188 | Every save is logged. An accepted save replaces the whole value under the key, and a refused save changes nothing. |
| `Services.Mailer.Send` | main.go:199-201 | The outbox gains the message exactly when the service accepts it. |
| `Promo.Contains` | main.go:140 | True exactly when the pattern occurs at some position of the text. |
| `Promo.LedgerKey` | main.go:105 | The key is `sent_promos_` followed by the provider name, and the provider can be read back from it. |
| `Promo.PageURL` | main.go:72-81 | A page exists exactly for mobifone, viettel and vinaphone; any other provider has none. mobifone's page is the promotions page `http://dichvudidong.vn/tin-khuyen-mai` itself, and each other provider's page is that URL followed by `-` and the provider name, so the three pages are distinct. |
| `Promo.Compose` | main.go:190-201 | No message without recipients. Otherwise the subject is the title and the recipients are unchanged. The body is the description, or the title when the description is empty, so a non-empty title never gives an empty body. |
| `Promo.Step` | main.go:122-163 | One item only adds to the ledger and never changes an existing entry. It adds at most the item's fingerprint. A message leaves only for a worthy item whose fingerprint was not in the ledger. |
| `PromoProperties.StepNoTitle` | main.go:123-136 | An item with a missing or empty title sends nothing and leaves the ledger unchanged. |
| `PromoProperties.StepNotPromotion` | main.go:140-149 | A title without "50%" sends nothing and leaves the ledger unchanged. The verdict does not depend on the description. |
| `PromoProperties.StepAlreadySent` | main.go:151-157 | A fingerprint already in the ledger: nothing is sent and the ledger is unchanged. |
| `PromoProperties.StepDue` | main.go:159-162 | A new worthy item adds exactly its fingerprint, stamped with the current time, so the ledger grows by one entry. The message is the composed one, and it leaves whenever there are recipients. |
| `PromoProperties.StepEmptyDescription` | main.go:144-162 | With an empty or missing description, the fingerprint is the digest of the title alone. The message body is still the title. |
| `PromoProperties.StepTwice` | main.go:151-162 | The same item handled twice sends at most once. The second time changes nothing. |
| `PromoProperties.PromotionRuleExamples` | main.go:140 | "Save 50% today" passes the rule; "Save 20% today" and the empty title do not. |
| `PromoProperties.LedgerKeysDistinct` | main.go:105 | Different providers never share a ledger key. |
| `PromoProperties.RunGrows` | main.go:154-162 | A whole page never removes or rewrites a ledger entry. |
| `PromoProperties.RunRecordsWorthy` | main.go:151-162 | After a page, the fingerprint of every worthy item on it is in the ledger. |
| `PromoProperties.RunSettled` | main.go:151-157 | A page whose worthy fingerprints are all recorded sends nothing and leaves the ledger as it was. |
| `PromoProperties.ReplaySendsNothing` | main.go:105-118 | A second pass over the same page, against the ledger the first left, sends nothing and changes nothing, whatever the clock. |
| `PromoProperties.RunNotifiesOnce` | main.go:151-162 | Within a pass, the recorded fingerprints are pairwise distinct and absent from the starting ledger. The final keys are exactly the starting keys plus these. When there are recipients, one message leaves per recorded fingerprint. |
| `PromoProperties.RunMailsTo` | main.go:160 | Every message of a pass is addressed to the pass's recipient list. |
| `PromoProperties.WorthyThenOther` | main.go:118-162 | Against an empty ledger, a new worthy item followed by an item without "50%" gives one message and a ledger holding only the first item's fingerprint. |
| `PromoProperties.TwoItemScenario` | main.go:118-162 | The page "Giảm 50% cho khách hàng mới" / "Ưu đãi 20%", one recipient, empty ledger: exactly one message is sent, for the first item. The ledger then holds only its fingerprint. |
| `Visitor.SendMessage` | main.go:190-202 | No recipients: success, and nothing is sent. Otherwise the composed message is in the outbox exactly when the send succeeded. |
| `Visitor.PromoVisitor.constructor` | main.go:56-61 | The visitor holds the page, provider, recipients and fingerprint function, and starts with an empty ledger. |
| `Visitor.PromoVisitor.CheckPromoItem` | main.go:122-163 | After a successful call, the ledger and outbox are exactly those of `Step`. The call fails only when a due message could not be sent to a non-empty recipient list. Then nothing is recorded. |
| `Visitor.PromoVisitor.CheckItems` | main.go:118 | Items are handled in page order; the final ledger and outbox are those of `Run`. A failed send stops at its index, with the state `Run` gives for the items before it. |
| `Visitor.PromoVisitor.Visit` | main.go:98-120 | A page or ledger load failure ends the pass with no send and no save. A ledger that does not decode always ends it. A completed pass has the ledger and outbox of `Run` from the loaded ledger: a nil or absent ledger starts from the empty one, a stored ledger is the starting point. It saves that ledger under the provider's key exactly once; an empty page against a nil ledger saves the empty ledger once. A failed send stops with no save. |
| `Visitor.TwoPasses` | main.go:105-116 | After a completed first pass, `afterFirst` is the outbox `Run` gives, and `mid`, the store's data between the passes, is either its old data or that data with the first pass's ledger under the provider's key; `carried` holds exactly when `mid` holds that ledger. A completed second pass is `Run` from the ledger decoded from `mid`, and it adds its mail to `afterFirst`. When both passes complete, the saves are exactly two under the provider's key: the first pass's ledger, then the second's. If the first pass's save was also carried, the second pass sends nothing and keeps the same ledger, so it saves that ledger again. |
| `Visitor.Start` | main.go:55-85 | An unreadable recipient file is fatal. No recipients ends quietly, whatever the provider. An unsupported provider is fatal. These three touch neither the store nor the mail service. A fatal exit, including a failed pass, never writes the ledger. A finished run is one pass of `Run` over the page `PageURL` selects for the provider, with the given fingerprint function and the recipients read from the file, starting from the provider's stored ledger: the outbox gains exactly that pass's mail, each message addressed to those recipients, and that pass's ledger is saved under the provider's key exactly once. |

## Left out

- The page fetch, XPath queries and HTML sanitising are foreign libraries. The model
  takes the page as a function from URL to an optional list of items. Each item's
  title and description are given as already-normalised optional text.
- SHA-1 and its hexadecimal rendering are a parameter `digest: string -> string`.
  Being a function, it is deterministic.
- The error branch of `hashMessage` is not modelled: writing to a Go `hash.Hash` never
  returns an error.
- JSON encoding of the ledger is reduced to the three cases that matter. The stored
  value is an object, is `null`, or does not decode.
- A key the datastore has never held is taken to read back as JSON `null`, which gives
  an empty ledger. The datastore service's own behaviour is not part of this model.
- The HTTP transport to the datastore (hook_io.go) is not modelled. Get and Set are
  abstract calls that may fail.
- Mailgun delivery is an abstract send that may fail. The fixed sender address is not
  carried in the message.
- The clock is a parameter. The item at page index i is stamped with `clock(i)`, which
  covers any sequence of clock readings.
- Flag parsing, `init`, logging and the debug output are not modelled. `readLines` is
  replaced by the recipient list, given as None when the file cannot be read.
- `log.Fatal` does not end a process here. The model returns a status in which the
  deferred save did not run.
- The deferred save captures the map by reference in Go. The model saves the field's
  final value at the same point, which is the same map.
- Visitor.PromoVisitor.Visit: does not state the visitor's ledger field after a failed
  ledger load. The pass is abandoned there, and Go leaves whatever the failed decode
  produced.
- Running two passes at once against the same key is not modelled. The program has no
  concurrency.

=== FILE: promo.dfy ===
/** The decision logic of one promotion pass, as pure functions: which items are
    notified, what the message is, and how the ledger of sent promotions evolves. */
module Promo {
  import opened Services

  /** One item region of the listing page after extraction: the normalised text
      (markup stripped, entities decoded, surrounding space trimmed) of its title
      link and of its summary, or None where the region has no such node. */
  datatype Item = Item(title: Option<string>, description: Option<string>)

  const LedgerKeyPrefix: string := "sent_promos_"
  const PromoMarker: string := "50%"

  // ---------------------------------------------------------------------------
  // Text and configuration helpers

  ghost predicate OccursAt(s: string, sub: string, i: int)
  {
    0 <= i && i + |sub| <= |s| && s[i..i + |sub|] == sub
  }

  /** Substring test, as Go's strings.Contains. */
  function Contains(s: string, sub: string): (r: bool)
    ensures r <==> exists i :: OccursAt(s, sub, i)
    decreases |s|
  {
    if |s| < |sub| then
      false
    else if s[..|sub|] == sub then
      assert OccursAt(s, sub, 0);
      true
    else
      var r := Contains(s[1..], sub);
      assert r ==> exists i :: OccursAt(s, sub, i) by {
        if r {
          var i :| OccursAt(s[1..], sub, i);
          assert s[1..][i..i + |sub|] == s[i + 1..i + 1 + |sub|];
          assert OccursAt(s, sub, i + 1);
        }
      }
      assert (exists i :: OccursAt(s, sub, i)) ==> r by {
        if exists i :: OccursAt(s, sub, i) {
          var i :| OccursAt(s, sub, i);
          assert i != 0;
          assert s[1..][i - 1..i - 1 + |sub|] == s[i..i + |sub|];
          assert OccursAt(s[1..], sub, i - 1);
        }
      }
      r
  }

  /** The notification rule: the title mentions "50%". */
  predicate IsPromotionWorthy(title: string)
  {
    Contains(title, PromoMarker)
  }

  /** The datastore key of a provider's ledger. */
  function LedgerKey(provider: string): (key: string)
    ensures |key| == |LedgerKeyPrefix| + |provider|
    ensures key[..|LedgerKeyPrefix|] == LedgerKeyPrefix && key[|LedgerKeyPrefix|..] == provider
  {
    LedgerKeyPrefix + provider
  }

  /** The listing page of each supported provider; None for any other provider. */
  function PageURL(provider: string): (url: Option<string>)
    ensures url.Some? <==> provider == "mobifone" || provider == "viettel" || provider == "vinaphone"
    ensures url.Some? ==>
      url.value == "http://dichvudidong.vn/tin-khuyen-mai" + (if provider == "mobifone" then "" else "-" + provider)
  {
    match provider
    case "mobifone" => Some("http://dichvudidong.vn/tin-khuyen-mai")
    case "viettel" => Some("http://dichvudidong.vn/tin-khuyen-mai-viettel")
    case "vinaphone" => Some("http://dichvudidong.vn/tin-khuyen-mai-vinaphone")
    case _ => None
  }

  /** The message sendMessage hands to the mail service, or None when it returns
      without sending because there is no recipient. An empty description is
      replaced by the title in the body. */
  function Compose(title: string, description: string, to: seq<string>): (m: Option<Email>)
    ensures m.None? <==> to == []
    ensures m.Some? ==> m.value.subject == title && m.value.to == to
    ensures m.Some? ==> (m.value.body == description || (description == "" && m.value.body == title))
    ensures m.Some? && title != "" ==> m.value.body != ""
  {
    if to == [] then None
    else Some(Email(title, if description == "" then title else description, to))
  }

  // ---------------------------------------------------------------------------
  // The per-item gate

  /** What checkPromoItem decides about one item against the current ledger. */
  datatype Verdict =
    | NoTitle                                    // title node missing or empty text
    | NotPromotion(title: string)                // title lacks the marker
    | AlreadySent(title: string, fingerprint: string)
    | Due(title: string, description: string, fingerprint: string)

  /** The description as read by checkPromoItem: empty when the node is missing. */
  function DescriptionText(item: Item): string
  {
    if item.description.Some? then item.description.value else ""
  }

  /** True for items whose title is present, non-empty and carries the marker. */
  predicate Worthy(item: Item)
  {
    item.title.Some? && item.title.value != "" && IsPromotionWorthy(item.title.value)
  }

  /** The fingerprint of an item: the digest of title and description (before any
      substitution of the title for an empty description). */
  function Fingerprint(item: Item, digest: string -> string): string
    requires item.title.Some?
  {
    digest(item.title.value + DescriptionText(item))
  }

  function Check(item: Item, ledger: Ledger, digest: string -> string): Verdict
  {
    if item.title.None? || item.title.value == "" then NoTitle
    else if !IsPromotionWorthy(item.title.value) then NotPromotion(item.title.value)
    else
      var h := Fingerprint(item, digest);
      if h in ledger then AlreadySent(item.title.value, h)
      else Due(item.title.value, DescriptionText(item), h)
  }

  /** The result of handling one item when the send succeeds: the new ledger and the
      message the mail service received, if any. */
  datatype Effect = Effect(ledger: Ledger, mail: Option<Email>)

  function Step(item: Item, ledger: Ledger, now: int, to: seq<string>, digest: string -> string): (e: Effect)
    // the ledger only grows, keeps every entry it had, and gains at most the item's fingerprint
    ensures ledger.Keys <= e.ledger.Keys
    ensures forall h :: h in ledger ==> e.ledger[h] == ledger[h]
    ensures e.ledger.Keys <= ledger.Keys + (if item.title.Some? then {Fingerprint(item, digest)} else {})
    // a message leaves only for a worthy item whose fingerprint was not yet recorded
    ensures e.mail.Some? ==> Worthy(item) && Fingerprint(item, digest) !in ledger
  {
    match Check(item, ledger, digest)
    case Due(title, description, h) =>
      Effect(ledger[h := now], Compose(title, description, to))
    case _ =>
      Effect(ledger, None)
  }

  function MailsOf(e: Effect): seq<Email>
  {
    if e.mail.Some? then [e.mail.value] else []
  }

  // ---------------------------------------------------------------------------
  // A whole pass over the page

  /** Ledger and sent mail after every item of the page was handled, each send
      succeeding; the item at index i is stamped with clock(i). */
  datatype Pass = Pass(ledger: Ledger, mails: seq<Email>)

  function Run(items: seq<Item>, ledger: Ledger, clock: nat -> int, to: seq<string>,
               digest: string -> string): Pass
    decreases |items|
  {
    if items == [] then
      Pass(ledger, [])
    else
      var n := |items| - 1;
      var before := Run(items[..n], ledger, clock, to, digest);
      var e := Step(items[n], before.ledger, clock(n), to, digest);
      Pass(e.ledger, before.mails + MailsOf(e))
  }

  /** The fingerprints recorded by a pass, in the order the items were handled. */
  ghost function Notified(items: seq<Item>, ledger: Ledger, clock: nat -> int, to: seq<string>,
                          digest: string -> string): seq<string>
    decreases |items|
  {
    if items == [] then
      []
    else
      var n := |items| - 1;
      var before := Run(items[..n], ledger, clock, to, digest);
      Notified(items[..n], ledger, clock, to, digest) +
        (if Check(items[n], before.ledger, digest).Due? then [Fingerprint(items[n], digest)] else [])
  }
}

=== FILE: promo_properties.dfy ===
/** What the promotion pass guarantees: per item, per pass, and across passes. */
module PromoProperties {
  import opened Services
  import opened Promo

  // ---------------------------------------------------------------------------
  // One item

  /** An item without a title node, or whose title text is empty, changes nothing. */
  lemma StepNoTitle(item: Item, ledger: Ledger, now: int, to: seq<string>, digest: string -> string)
    requires item.title.None? || item.title.value == ""
    ensures Step(item, ledger, now, to, digest) == Effect(ledger, None)
  {
  }

  /** A title without the marker changes nothing, whatever the description says. */
  lemma StepNotPromotion(item: Item, other: Option<string>, ledger: Ledger, now: int, to: seq<string>,
                         digest: string -> string)
    requires item.title.Some? && !IsPromotionWorthy(item.title.value)
    ensures Step(item, ledger, now, to, digest) == Effect(ledger, None)
    ensures Check(Item(item.title, other), ledger, digest) == Check(item, ledger, digest)
  {
  }

  /** An item whose fingerprint is already in the ledger is not sent again. */
  lemma StepAlreadySent(item: Item, ledger: Ledger, now: int, to: seq<string>, digest: string -> string)
    requires Worthy(item) && Fingerprint(item, digest) in ledger
    ensures Step(item, ledger, now, to, digest) == Effect(ledger, None)
  {
  }

  /** A new worthy item is sent to the recipients and exactly its fingerprint is
      added, stamped with the current time. */
  lemma StepDue(item: Item, ledger: Ledger, now: int, to: seq<string>, digest: string -> string)
    requires Worthy(item) && Fingerprint(item, digest) !in ledger
    ensures var e := Step(item, ledger, now, to, digest);
      && e.ledger == ledger[Fingerprint(item, digest) := now]
      && |e.ledger| == |ledger| + 1
      && e.mail == Compose(item.title.value, DescriptionText(item), to)
      && (to != [] ==> e.mail.Some?)
  {
  }

  /** An item with an empty or missing description is fingerprinted on its title
      alone, while its message carries the title as body. */
  lemma StepEmptyDescription(item: Item, ledger: Ledger, now: int, to: seq<string>, digest: string -> string)
    requires Worthy(item) && DescriptionText(item) == ""
    requires digest(item.title.value) !in ledger && to != []
    ensures var e := Step(item, ledger, now, to, digest);
      && e.ledger == ledger[digest(item.title.value) := now]
      && e.mail == Some(Email(item.title.value, item.title.value, to))
  {
    assert item.title.value + "" == item.title.value;
  }

  /** Handling the same item twice sends at most once; the second time changes nothing. */
  lemma StepTwice(item: Item, ledger: Ledger, now1: int, now2: int, to: seq<string>, digest: string -> string)
    ensures var first := Step(item, ledger, now1, to, digest);
      Step(item, first.ledger, now2, to, digest) == Effect(first.ledger, None)
  {
  }

  /** A text without the character '5' cannot carry the marker. */
  lemma {:induction false} NoFiveNoMarker(s: string)
    requires '5' !in s
    ensures !IsPromotionWorthy(s)
  {
    forall i
      ensures OccursAt(s, PromoMarker, i) ==> s[i] == '5'
    {
      if 0 <= i && i + |PromoMarker| <= |s| {
        assert s[i..i + |PromoMarker|][0] == s[i];
      }
    }
  }

  /** The notification rule on three sample titles. */
  lemma PromotionRuleExamples()
    ensures IsPromotionWorthy("Save 50% today")
    ensures !IsPromotionWorthy("Save 20% today")
    ensures !IsPromotionWorthy("")
  {
    assert OccursAt("Save 50% today", PromoMarker, 5);
    NoFiveNoMarker("Save 20% today");
  }

  /** Ledgers of different providers never share a datastore key. */
  lemma LedgerKeysDistinct(p: string, q: string)
    requires p != q
    ensures LedgerKey(p) != LedgerKey(q)
  {
  }

  // ---------------------------------------------------------------------------
  // One pass

  /** A pass never removes or rewrites an entry of the ledger. */
  lemma {:induction false} RunGrows(items: seq<Item>, ledger: Ledger, clock: nat -> int, to: seq<string>,
                                    digest: string -> string)
    ensures var after := Run(items, ledger, clock, to, digest).ledger;
      ledger.Keys <= after.Keys && forall h :: h in ledger ==> after[h] == ledger[h]
    decreases |items|
  {
    if items != [] {
      RunGrows(items[..|items| - 1], ledger, clock, to, digest);
    }
  }

  /** After a pass, the fingerprint of every worthy item of the page is recorded. */
  lemma {:induction false} RunRecordsWorthy(items: seq<Item>, ledger: Ledger, clock: nat -> int,
                                            to: seq<string>, digest: string -> string)
    ensures forall j :: 0 <= j < |items| && Worthy(items[j]) ==>
      Fingerprint(items[j], digest) in Run(items, ledger, clock, to, digest).ledger
    decreases |items|
  {
    if items != [] {
      var n := |items| - 1;
      RunRecordsWorthy(items[..n], ledger, clock, to, digest);
      forall j | 0 <= j < |items| && Worthy(items[j])
        ensures Fingerprint(items[j], digest) in Run(items, ledger, clock, to, digest).ledger
      {
        if j < n {
          assert items[..n][j] == items[j];
        }
      }
    }
  }

  /** A pass over a page whose worthy items are all recorded sends nothing and
      leaves the ledger as it was. */
  lemma {:induction false} RunSettled(items: seq<Item>, ledger: Ledger, clock: nat -> int,
                                      to: seq<string>, digest: string -> string)
    requires forall j :: 0 <= j < |items| && Worthy(items[j]) ==> Fingerprint(items[j], digest) in ledger
    ensures Run(items, ledger, clock, to, digest) == Pass(ledger, [])
    decreases |items|
  {
    if items != [] {
      var n := |items| - 1;
      forall j | 0 <= j < n && Worthy(items[..n][j])
        ensures Fingerprint(items[..n][j], digest) in ledger
      {
        assert items[..n][j] == items[j];
      }
      RunSettled(items[..n], ledger, clock, to, digest);
    }
  }

  /** Replaying a page against the ledger its first pass left sends nothing. */
  lemma ReplaySendsNothing(items: seq<Item>, ledger: Ledger, clock1: nat -> int, clock2: nat -> int,
                           to: seq<string>, digest: string -> string)
    ensures var first := Run(items, ledger, clock1, to, digest).ledger;
      Run(items, first, clock2, to, digest) == Pass(first, [])
  {
    RunRecordsWorthy(items, ledger, clock1, to, digest);
    RunSettled(items, Run(items, ledger, clock1, to, digest).ledger, clock2, to, digest);
  }

  /** At most once per fingerprint: the fingerprints a pass records are pairwise
      distinct and new, they are exactly the keys it adds, and one message leaves
      for each of them when there are recipients. */
  lemma {:induction false} RunNotifiesOnce(items: seq<Item>, ledger: Ledger, clock: nat -> int,
                                           to: seq<string>, digest: string -> string)
    ensures var recorded := Notified(items, ledger, clock, to, digest);
      var p := Run(items, ledger, clock, to, digest);
      && (forall i, j :: 0 <= i < j < |recorded| ==> recorded[i] != recorded[j])
      && (forall h :: h in recorded ==> h !in ledger)
      && (forall h :: h in p.ledger <==> h in ledger || h in recorded)
      && |p.mails| == (if to == [] then 0 else |recorded|)
    decreases |items|
  {
    if items != [] {
      var n := |items| - 1;
      RunNotifiesOnce(items[..n], ledger, clock, to, digest);
    }
  }

  /** Every message of a pass is addressed to the pass's recipients. */
  lemma {:induction false} RunMailsTo(items: seq<Item>, ledger: Ledger, clock: nat -> int,
                                      to: seq<string>, digest: string -> string)
    ensures forall m :: m in Run(items, ledger, clock, to, digest).mails ==> m.to == to
    decreases |items|
  {
    if items != [] {
      RunMailsTo(items[..|items| - 1], ledger, clock, to, digest);
    }
  }

  const TitleA: string := "Giảm 50% cho khách hàng mới"
  const DescriptionA: string := "Áp dụng đến hết tháng"
  const TitleB: string := "Ưu đãi 20%"

  lemma ScenarioTitles()
    ensures IsPromotionWorthy(TitleA) && !IsPromotionWorthy(TitleB)
  {
    assert TitleA[5] == '5' && TitleA[6] == '0' && TitleA[7] == '%';
    assert TitleA[5..8] == PromoMarker;
    assert OccursAt(TitleA, PromoMarker, 5);
    NoFiveNoMarker(TitleB);
  }

  /** A page of one new worthy item followed by one item without the marker. */
  lemma WorthyThenOther(a: Item, b: Item, clock: nat -> int, to: seq<string>, digest: string -> string)
    requires Worthy(a) && b.title.Some? && !IsPromotionWorthy(b.title.value) && to != []
    ensures var p := Run([a, b], map[], clock, to, digest);
      && p.mails == [Email(a.title.value, Compose(a.title.value, DescriptionText(a), to).value.body, to)]
      && p.ledger == map[Fingerprint(a, digest) := clock(0)]
  {
    StepDue(a, map[], clock(0), to, digest);
    var e1 := Step(a, map[], clock(0), to, digest);
    assert [a, b][..1] == [a];
    assert [a][..0] == [];
    assert Run([a], map[], clock, to, digest) == Pass(e1.ledger, [e1.mail.value]);
    StepNotPromotion(b, None, e1.ledger, clock(1), to, digest);
  }

  /** A two-item page of Vietnamese promotions, against an empty ledger and a single
      recipient: only the 50% item is sent and recorded. */
  lemma TwoItemScenario(clock: nat -> int, digest: string -> string)
    ensures var items := [Item(Some(TitleA), Some(DescriptionA)), Item(Some(TitleB), None)];
      var p := Run(items, map[], clock, ["a@example.com"], digest);
      && p.mails == [Email(TitleA, DescriptionA, ["a@example.com"])]
      && p.ledger == map[digest(TitleA + DescriptionA) := clock(0)]
  {
    ScenarioTitles();
    WorthyThenOther(Item(Some(TitleA), Some(DescriptionA)), Item(Some(TitleB), None), clock,
                    ["a@example.com"], digest);
  }
}

=== FILE: services.dfy ===
/** The collaborators the promotion pass talks to: the key-value datastore that keeps
    each provider's ledger of notified promotions, and the mail service. Their transport
    is not modelled; each call may fail, which is a nondeterministic choice here. */
module Services {

  datatype Option<+T> = None | Some(value: T)

  /** The ledger of notified promotions: fingerprint -> Unix time (seconds) of the send. */
  type Ledger = map<string, int>

  /** One notification: subject, plain-text body and recipients. */
  datatype Email = Email(subject: string, body: string, to: seq<string>)

  /** What the datastore holds under a key: a JSON object of fingerprint -> seconds,
      JSON `null`, or text that does not decode as such an object. */
  datatype Blob = Entries(ledger: Ledger) | Null | Malformed

  /** What reading a ledger yields: an error, or a map that may be nil. */
  datatype Fetched = FetchError | Fetched(ledger: Option<Ledger>)

  /** Decoding of the value held under `key` when the transport works. A key never
      written reads back as JSON null; a value that does not decode is an error. */
  function Decode(data: map<string, Blob>, key: string): Fetched
  {
    if key !in data then Fetched(None)
    else match data[key]
      case Entries(m) => Fetched(Some(m))
      case Null => Fetched(None)
      case Malformed => FetchError
  }

  /** The remote datastore, with a log of every write it was asked to make. */
  class Store {
    var data: map<string, Blob>
    var saves: seq<(string, Ledger)>

    /** Reads and decodes the ledger under `key`; the transport may fail. */
    method Get(key: string) returns (f: Fetched)
      ensures f == Decode(data, key) || f == FetchError
    {
      var reachable: bool :| true;
      if !reachable {
        return FetchError;
      }
      f := Decode(data, key);
    }

    /** Writes the whole ledger under `key`, replacing what was there; the write
        is logged whether or not the service accepts it. */
    method Set(key: string, ledger: Ledger) returns (ok: bool)
      modifies this
      ensures saves == old(saves) + [(key, ledger)]
      ensures data == if ok then old(data)[key := Entries(ledger)] else old(data)
    {
      ok :| true;
      saves := saves + [(key, ledger)];
      if ok {
        data := data[key := Entries(ledger)];
      }
    }
  }

  /** The mail service; `outbox` holds every message it accepted, in order. */
  class Mailer {
    var outbox: seq<Email>

    method Send(m: Email) returns (ok: bool)
      modifies this
      ensures outbox == if ok then old(outbox) + [m] else old(outbox)
    {
      ok :| true;
      if ok {
        outbox := outbox + [m];
      }
    }
  }
}

=== FILE: visitor.dfy ===
/** The promotion visitor: one pass over a provider's listing page that mails new
    50% promotions and keeps the provider's ledger of sent promotions, and the start-up
    logic that configures it. */
module Visitor {
  import opened Services
  import opened Promo
  import PromoProperties

  /** How a pass ends. SendFailed(i) is the process exit that follows a failed send
      while handling the item at index i: the deferred save does not run. */
  datatype Status = Done | PageLoadFailed | LedgerLoadFailed | SendFailed(item: nat)

  /** Sends one promotion; an empty recipient list is a successful no-op, and an
      empty description is replaced by the title in the body. */
  method SendMessage(title: string, description: string, to: seq<string>, mailer: Mailer) returns (ok: bool)
    modifies mailer
    ensures var m := Compose(title, description, to);
      m.None? ==> ok && mailer.outbox == old(mailer.outbox)
    ensures var m := Compose(title, description, to);
      m.Some? ==> mailer.outbox == if ok then old(mailer.outbox) + [m.value] else old(mailer.outbox)
  {
    if |to| == 0 {
      return true;
    }
    var body := description;
    if body == "" {
      body := title;
    }
    ok := mailer.Send(Email(title, body, to));
  }

  /** The ledger a pass starts from: the stored ledger, or an empty one for nil. */
  function StartLedger(f: Fetched): Ledger
    requires f.Fetched?
  {
    if f.ledger.Some? then f.ledger.value else map[]
  }

  class PromoVisitor {
    const pageURL: string
    const mobiProvider: string
    const mailTo: seq<string>
    /** hashMessage: the SHA-1 digest of a text, as upper-case hexadecimal. */
    const digest: string -> string
    var sentPromos: Ledger

    constructor (pageURL: string, mobiProvider: string, mailTo: seq<string>, digest: string -> string)
      ensures this.pageURL == pageURL && this.mobiProvider == mobiProvider
      ensures this.mailTo == mailTo && this.digest == digest
      ensures sentPromos == map[]
    {
      this.pageURL := pageURL;
      this.mobiProvider := mobiProvider;
      this.mailTo := mailTo;
      this.digest := digest;
      sentPromos := map[];
    }

    /** Handles one item at time `now`. On success the ledger and the outbox are
        those of Step; `ok` is false only when a due message failed to send, and then
        nothing was recorded. */
    method CheckPromoItem(item: Item, now: int, mailer: Mailer) returns (ok: bool)
      modifies this`sentPromos, mailer
      ensures var e := Step(item, old(sentPromos), now, mailTo, digest);
        ok ==> sentPromos == e.ledger && mailer.outbox == old(mailer.outbox) + MailsOf(e)
      ensures !ok ==> && Check(item, old(sentPromos), digest).Due? && mailTo != []
                      && sentPromos == old(sentPromos) && mailer.outbox == old(mailer.outbox)
    {
      if item.title.None? {
        return true;
      }
      var title := item.title.value;
      if title == "" {
        return true;
      }
      if !Contains(title, PromoMarker) {
        return true;
      }
      var description := "";
      if item.description.Some? {
        description := item.description.value;
      }
      var hashMsg := digest(title + description);
      if hashMsg in sentPromos {
        return true;
      }
      ok := SendMessage(title, description, mailTo, mailer);
      if !ok {
        return false;
      }
      sentPromos := sentPromos[hashMsg := now];
    }

    /** Handles the items in page order, item i at time clock(i), as FindEach calls
        back for each match; stops at the first send that fails, reporting its index. */
    method CheckItems(items: seq<Item>, clock: nat -> int, mailer: Mailer) returns (failed: Option<nat>)
      modifies this`sentPromos, mailer
      ensures failed.None? ==>
                var p := Run(items, old(sentPromos), clock, mailTo, digest);
                sentPromos == p.ledger && mailer.outbox == old(mailer.outbox) + p.mails
      ensures failed.Some? ==>
                var k := failed.value;
                k < |items| &&
                var p := Run(items[..k], old(sentPromos), clock, mailTo, digest);
                && sentPromos == p.ledger
                && mailer.outbox == old(mailer.outbox) + p.mails
                && Check(items[k], sentPromos, digest).Due? && mailTo != []
    {
      var i := 0;
      while i < |items|
        invariant 0 <= i <= |items|
        invariant sentPromos == Run(items[..i], old(sentPromos), clock, mailTo, digest).ledger
        invariant mailer.outbox == old(mailer.outbox) + Run(items[..i], old(sentPromos), clock, mailTo, digest).mails
      {
        assert items[..i + 1][..i] == items[..i];
        var ok := CheckPromoItem(items[i], clock(i), mailer);
        if !ok {
          return Some(i);
        }
        i := i + 1;
      }
      assert items[..i] == items;
      failed := None;
    }

    /** One pass: load the page, load the ledger, handle every item in page order
        (item i at time clock(i)), then save the whole ledger once. */
    method Visit(fetch: string -> Option<seq<Item>>, clock: nat -> int, store: Store, mailer: Mailer)
      returns (status: Status)
      modifies this`sentPromos, store, mailer
      // a page that does not load ends the pass before anything is read or written
      ensures fetch(pageURL).None? <==> status == PageLoadFailed
      ensures status == PageLoadFailed ==> sentPromos == old(sentPromos)
      // a ledger that cannot be read or decoded ends it before any send or save
      ensures Decode(old(store.data), LedgerKey(mobiProvider)).FetchError? && fetch(pageURL).Some? ==>
                status == LedgerLoadFailed
      ensures status == PageLoadFailed || status == LedgerLoadFailed ==>
                store.data == old(store.data) && store.saves == old(store.saves) &&
                mailer.outbox == old(mailer.outbox)
      // a completed pass leaves the ledger and outbox of Run and saves the ledger exactly once
      ensures status.Done? || status.SendFailed? ==>
                fetch(pageURL).Some? && Decode(old(store.data), LedgerKey(mobiProvider)).Fetched?
      ensures status.Done? ==>
                var items := fetch(pageURL).value;
                var p := Run(items, StartLedger(Decode(old(store.data), LedgerKey(mobiProvider))), clock, mailTo, digest);
                && sentPromos == p.ledger
                && mailer.outbox == old(mailer.outbox) + p.mails
                && store.saves == old(store.saves) + [(LedgerKey(mobiProvider), sentPromos)]
                && (store.data == old(store.data) ||
                    store.data == old(store.data)[LedgerKey(mobiProvider) := Entries(sentPromos)])
      // an empty page against a nil or absent ledger saves the empty ledger
      ensures status.Done? && fetch(pageURL).value == [] &&
              Decode(old(store.data), LedgerKey(mobiProvider)) == Fetched(None) ==>
                store.saves == old(store.saves) + [(LedgerKey(mobiProvider), map[])]
      // a failed send ends the process after the items before it, without a save
      ensures status.SendFailed? ==>
                var items := fetch(pageURL).value;
                var k := status.item;
                k < |items| &&
                var p := Run(items[..k], StartLedger(Decode(old(store.data), LedgerKey(mobiProvider))), clock, mailTo, digest);
                && sentPromos == p.ledger
                && mailer.outbox == old(mailer.outbox) + p.mails
                && Check(items[k], sentPromos, digest).Due? && mailTo != []
                && store.data == old(store.data) && store.saves == old(store.saves)
    {
      var page := fetch(pageURL);
      if page.None? {
        return PageLoadFailed;
      }
      var items := page.value;
      var key := LedgerKey(mobiProvider);
      var fetched := store.Get(key);
      if fetched.FetchError? {
        sentPromos := map[];
        return LedgerLoadFailed;
      }
      if fetched.ledger.None? {
        sentPromos := map[];
      } else {
        sentPromos := fetched.ledger.value;
      }
      var failed := CheckItems(items, clock, mailer);
      if failed.Some? {
        return SendFailed(failed.value);
      }
      // The deferred save: the whole ledger, once, its error ignored.
      var _ := store.Set(key, sentPromos);
      status := Done;
    }
  }

  /** Two passes of one visitor over the same page, the ledger carried between them
      by the store. `afterFirst` is the outbox after the first pass, `mid` the store's
      data then, and `carried` tells whether that data holds the first pass's ledger.
      When the first save was accepted and both passes completed, the second pass
      sends nothing and saves the same ledger again. */
  method TwoPasses(v: PromoVisitor, fetch: string -> Option<seq<Item>>, clock1: nat -> int,
                   clock2: nat -> int, store: Store, mailer: Mailer)
    returns (first: Status, carried: bool, second: Status, afterFirst: seq<Email>,
             ghost mid: map<string, Blob>, ghost firstLedger: Ledger)
    modifies v`sentPromos, store, mailer
    ensures carried <==> LedgerKey(v.mobiProvider) in mid && mid[LedgerKey(v.mobiProvider)] == Entries(firstLedger)
    ensures first.Done? ==> fetch(v.pageURL).Some? && Decode(old(store.data), LedgerKey(v.mobiProvider)).Fetched?
    ensures first.Done? ==>
              var p := Run(fetch(v.pageURL).value, StartLedger(Decode(old(store.data), LedgerKey(v.mobiProvider))),
                           clock1, v.mailTo, v.digest);
              && firstLedger == p.ledger
              && afterFirst == old(mailer.outbox) + p.mails
              && (mid == old(store.data) || mid == old(store.data)[LedgerKey(v.mobiProvider) := Entries(p.ledger)])
    // the second pass reads `mid`: it is Run from the ledger decoded there
    ensures first.Done? && second.Done? ==> Decode(mid, LedgerKey(v.mobiProvider)).Fetched?
    ensures first.Done? && second.Done? ==>
              var p2 := Run(fetch(v.pageURL).value, StartLedger(Decode(mid, LedgerKey(v.mobiProvider))),
                            clock2, v.mailTo, v.digest);
              && v.sentPromos == p2.ledger
              && mailer.outbox == afterFirst + p2.mails
    ensures first.Done? && carried && second.Done? ==>
              && mailer.outbox == afterFirst
              && v.sentPromos == firstLedger
    // both passes save the provider's ledger once each, in order
    ensures first.Done? && second.Done? ==>
              store.saves == old(store.saves) + [(LedgerKey(v.mobiProvider), firstLedger),
                                                 (LedgerKey(v.mobiProvider), v.sentPromos)]
  {
    var key := LedgerKey(v.mobiProvider);
    first := v.Visit(fetch, clock1, store, mailer);
    afterFirst := mailer.outbox;
    mid := store.data;
    firstLedger := v.sentPromos;
    carried := key in store.data && store.data[key] == Entries(v.sentPromos);
    second := v.Visit(fetch, clock2, store, mailer);
    if first.Done? && carried && second.Done? {
      var items := fetch(v.pageURL).value;
      ghost var start := StartLedger(Decode(old(store.data), key));
      PromoProperties.ReplaySendsNothing(items, start, clock1, clock2, v.mailTo, v.digest);
    }
  }

  /** How the program ends. */
  datatype Exit = Finished | NoSubscriber | Fatal

  /** Program start-up: read the recipients (None when the file cannot be read), stop
      quietly without any, select the provider's page, run one pass; any error is fatal. */
  method Start(provider: string, recipients: Option<seq<string>>, digest: string -> string,
               fetch: string -> Option<seq<Item>>, clock: nat -> int, store: Store, mailer: Mailer)
    returns (exit: Exit)
    modifies store, mailer
    ensures exit == NoSubscriber <==> recipients == Some([])
    ensures recipients.None? ==> exit == Fatal
    ensures recipients.Some? && recipients.value != [] && PageURL(provider).None? ==> exit == Fatal
    // nothing is read, sent or saved unless recipients and provider are both usable
    ensures recipients.None? || recipients == Some([]) || PageURL(provider).None? ==>
              store.data == old(store.data) && store.saves == old(store.saves) &&
              mailer.outbox == old(mailer.outbox)
    // a fatal exit never writes the ledger: the deferred save is skipped
    ensures exit == Fatal ==> store.data == old(store.data) && store.saves == old(store.saves)
    // a finished run is one pass of Run over the provider's page, from its stored ledger,
    // saved under the provider's key exactly once
    ensures exit == Finished ==>
              && recipients.Some? && recipients.value != [] && PageURL(provider).Some?
              && fetch(PageURL(provider).value).Some?
              && Decode(old(store.data), LedgerKey(provider)).Fetched?
              && var p := Run(fetch(PageURL(provider).value).value,
                              StartLedger(Decode(old(store.data), LedgerKey(provider))),
                              clock, recipients.value, digest);
              && mailer.outbox == old(mailer.outbox) + p.mails
              && store.saves == old(store.saves) + [(LedgerKey(provider), p.ledger)]
    // every message it added is addressed to the recipients read from the file
    ensures exit == Finished ==>
              forall m :: m in mailer.outbox[|old(mailer.outbox)|..] ==> m.to == recipients.value
  {
    if recipients.None? {
      return Fatal;
    }
    if |recipients.value| == 0 {
      return NoSubscriber;
    }
    var url := PageURL(provider);
    if url.None? {
      return Fatal;
    }
    var v := new PromoVisitor(url.value, provider, recipients.value, digest);
    var status := v.Visit(fetch, clock, store, mailer);
    if status != Done {
      return Fatal;
    }
    ghost var p := Run(fetch(url.value).value, StartLedger(Decode(old(store.data), LedgerKey(provider))),
                       clock, recipients.value, digest);
    PromoProperties.RunMailsTo(fetch(url.value).value, StartLedger(Decode(old(store.data), LedgerKey(provider))),
                               clock, recipients.value, digest);
    assert mailer.outbox[|old(mailer.outbox)|..] == p.mails;
    exit := Finished;
  }
}
